=== FILE: README.md ===
# afancontrol sensing and actuation core, modelled in Dafny

This project models the sensing and actuation core of afancontrol, a daemon that
drives fan speeds from host temperatures. The model covers three parts.

- **Temperature sensors** (`temp.dfy`, module `Temp`). Every sensor produces a
  `(temp, min, max)` triple. `Temp.get` checks it: the range must satisfy `min < max`,
  and the panic and threshold flags are derived from the optional limits. There are
  three sources, and `Sensor` is a tagged union over them:
  - `FileTemp` reads three sibling files (`_input`, `_min`, `_max`) that hold
    milli-degrees;
  - `HDDTemp` takes the hottest numeric line of the `hddtemp` output;
  - `CommandTemp` reads a shell command's output by line position.
- **The normalised hwmon PWM fan** (`pwmfan_norm.dfy`, module `PwmFanNorm`), in the
  behaviour its tests pin down:
  - raw duty writes are limited to 0..255;
  - `set` maps a speed fraction into the configured line range;
  - `get` reports raw/255;
  - the `with` scope takes manual control and gives it back.
- **The Arduino-backed fan** (`arduino.dfy`, module `Arduino`). It has a tachometer
  reader, a PWM reader and a PWM writer over one shared connection. The connection is
  an abstract store of the readings the board last reported, with an open/close
  depth and a log of the `set_pwm` commands sent. The writer's release sends full speed, waits for the board, and checks the
  value read back. The connection is released on every path out of a scope that was
  entered.

Two support modules sit underneath. `text.dfy` (module `Text`) holds the Python text
operations the sensors rely on: `str.strip()`, `str.split("\n")` and `int()`. Each
comes with its partner: strip is idempotent, split is inverted by join, and integer
printing round-trips with integer parsing. `wrappers.dfy` (module `Wrappers`) holds
`Option`, `Result` and `Completion`. A `Completion` says whether a `with` scope ended
normally or with an exception.

Abstractions:
- Temperatures are exact `real`s.
- The file system is a map from path to contents.
- A command is represented by its captured output.
- Python's `float()` is a parameter `parse: string -> Option<real>`, so every property
  holds for any parser.
- The hwmon fan files are fields of a record.
- Exceptions are `Result.Failure` or `Completion.Raised` values, one constructor per
  raise site.

What the code and the tests do, in three points that are easy to get wrong:
- `Temp.get` and `HDDTemp` raise `RuntimeError` (`MinNotBelowMax`,
  `NoValidTemperature`). They do not raise distinct configuration or read-error types.
- After the file-backed fan's scope, `test_enter_exit` expects enable=0 and the duty
  left at 100 (no full-speed write).
- The Arduino writer's release never touches an enable flag. It sends full speed,
  waits, and checks that the read-back pwm is at least 255.

## Model

| member | source | states |
|---|---|---|
| `Temp.Get` | afancontrol/temp.py:31-47 | fails exactly when `min < max` does not hold, with that error; otherwise the status is well formed (proper range, panic/threshold flags true iff the limit is set and reached) and carries temp, min, max and the limits unchanged |
| `Temp.SensorGet` | afancontrol/temp.py:31-37 | for every sensor variant, `get` succeeds iff the source's triple was produced and has `min < max`; each status it hands out is well formed and carries the source's triple and the sensor's limits; a failure is the source's own error, or the min/max RuntimeError with the offending pair |
| `Temp.GetTemp` | afancontrol/temp.py:32 | `_get_temp` dispatched on the sensor variant; characterised per variant by the lemmas below and through `Temp.SensorGet` |
| `Temp.BasePath` | afancontrol/temp.py:65 | `re.sub(r"_input$", "", p)`; see `Temp.BasePathDropsInputSuffix` and `Temp.BasePathBeforeLineBreak` |
| `Temp.PathsOf` | afancontrol/temp.py:65-68 | the `_input`, `_min` and `_max` paths; see `Temp.PathsIgnoreInputSuffix` and `Temp.SensorPathsDistinct` |
| `Temp.BasePathDropsInputSuffix` | afancontrol/temp.py:65 | stripping `_input$` from `p + "_input"` gives back `p` |
| `Temp.BasePathBeforeLineBreak` | afancontrol/temp.py:65 | the pattern's `$` also matches before a final line break: `p + "_input\n"` becomes `p + "\n"` |
| `Temp.PathsIgnoreInputSuffix` | afancontrol/temp.py:65-68 | a base path and the same base plus `_input` derive the same `_input`, `_min` and `_max` paths |
| `Temp.SensorPathsDistinct` | afancontrol/temp.py:66-68 | the three derived paths are pairwise different files |
| `Temp.ReadTempFromPath` | afancontrol/temp.py:90-92 | `_read_temp_from_path`: a missing file or a non-integer fails; see `Temp.ReadTempFromPathValue` |
| `Temp.FileMin` | afancontrol/temp.py:76-81 | `_get_min`: the configured value, else the `_min` file; see `Temp.FileTempValues` and `Temp.FileTempConfiguredMinSkipsFile` |
| `Temp.FileMax` | afancontrol/temp.py:83-88 | `_get_max`: the configured value, else the `_max` file; see `Temp.FileTempValues` and `Temp.FileTempConfiguredMaxSkipsFile` |
| `Temp.FileTempReading` | afancontrol/temp.py:72-74 | `FileTemp._get_temp`: input, then min, then max; see `Temp.FileTempValues` and `Temp.FileTempMissingMinFile` |
| `Temp.ReadTempFromPathValue` | afancontrol/temp.py:90-92 | a file whose stripped text is the integer `n` reads as `n / 1000` |
| `Temp.SysfsLineHoldsMilli` | afancontrol/temp.py:92 | a file holding one printed integer and a line break, as sysfs writes it, strips to that integer |
| `Temp.FileTempValues` | afancontrol/temp.py:72-92 | with files holding integers, the temperature is the `_input` value over 1000; each bound is the configured value when present, else the file value over 1000 |
| `Temp.FileTempConfiguredMinSkipsFile` | afancontrol/temp.py:76-81 | with a configured minimum, changing or deleting the `_min` file does not change the reading |
| `Temp.FileTempConfiguredMaxSkipsFile` | afancontrol/temp.py:83-88 | with a configured maximum, changing or deleting the `_max` file does not change the reading |
| `Temp.FileTempMissingMinFile` | afancontrol/temp.py:76-81 | without a configured minimum, a missing `_min` file makes the read fail with that path |
| `Temp.IsFloat` | afancontrol/temp.py:139-148 | `_is_float`: non-empty and accepted by `float()`; see `Temp.NumericValuesMembers` |
| `Temp.NumericValues` | afancontrol/temp.py:116-120 | the comprehension over stripped lines that pass `_is_float`; see `Temp.NumericValuesMembers`, `Temp.NumericValuesEmpty` and `Temp.NumericValuesAppend` |
| `Temp.HddTempFromLines` | afancontrol/temp.py:115-126 | `HDDTemp._get_temp` on the split output; see `Temp.HddFailsIffNoNumericLine` and `Temp.HddTempIsMaximum` |
| `Temp.HddTempReading` | afancontrol/temp.py:115-126 | the same on the raw output, split at line breaks; see `Temp.HddTempExample` |
| `Temp.MaxOf` | afancontrol/temp.py:125 | `max()` returns an element of the list that no element exceeds |
| `Temp.NumericValuesMembers` | afancontrol/temp.py:116-120 | a value is collected iff some output line, stripped, is non-empty and parses to it |
| `Temp.NumericValuesEmpty` | afancontrol/temp.py:116-121 | nothing is collected iff no stripped line passes `_is_float` |
| `Temp.HddFailsIffNoNumericLine` | afancontrol/temp.py:115-124 | the disk sensor fails iff no line parses, and then with the "empty list of valid temperature values" error |
| `Temp.HddTempIsMaximum` | afancontrol/temp.py:115-132 | on success the temperature is the value of some numeric line, no numeric line is hotter, and min/max are the configured values |
| `Temp.HddNonNumericLineIgnored` | afancontrol/temp.py:139-148 | a line that fails `_is_float` (blank or not numeric) can be inserted anywhere without changing the result |
| `Temp.HddTempExample` | afancontrol/temp.py:115-126 | the output `35.2`, `41.0`, `not-a-number` (one per line) yields 41.0 with the configured bounds |
| `Temp.NonBlankLines` | afancontrol/temp.py:170-174 | the stripped lines kept by `if line.strip()`, none of them empty; see `Temp.NonBlankLinesAppend`, `Temp.NonBlankLinesNoBlanks` and `Temp.NonBlankLinesDropBlank` |
| `Temp.ParseAll` | afancontrol/temp.py:170-174 | `float()` over the kept lines succeeds iff every line parses, giving the values position for position; otherwise the error names the first line that does not parse, where the comprehension raises |
| `Temp.CommandTempFromLines` | afancontrol/temp.py:169-187 | `CommandTemp._get_temp` on the split output; see `Temp.CommandFailsIff` and `Temp.CommandUsesAbsoluteIndices` |
| `Temp.CommandTempReading` | afancontrol/temp.py:169-187 | the same on the raw output: `Temp.CommandTempFromLines` applied to the output's `SplitNewline` lines, so `Temp.CommandFailsIff`, `Temp.CommandUsesAbsoluteIndices` and `Temp.CommandBlankLineIgnored` hold of those lines |
| `Temp.CommandFailsIff` | afancontrol/temp.py:169-187 | the command sensor fails iff a kept line does not parse, or line 0 is missing, or line 1 is missing with no configured min, or line 2 is missing with no configured max |
| `Temp.CommandUsesAbsoluteIndices` | afancontrol/temp.py:175-187 | on success temp is kept line 0; an unconfigured min is kept line 1 and an unconfigured max is kept line 2, whatever the other bound's configuration |
| `Temp.CommandBlankLineIgnored` | afancontrol/temp.py:170-174 | a whitespace-only line can be inserted anywhere without changing the result |
| `Temp.NonBlankLinesDropBlank` | afancontrol/temp.py:170-174 | the kept lines of an output are the same with or without a whitespace-only line at any position |
| `Temp.CommandMaxIsLineTwo` | afancontrol/temp.py:177-185 | with only min configured, max comes from line 2; line 1 must parse but is not used |
| `Temp.CommandNeedsLineTwo` | afancontrol/temp.py:182-185 | with only min configured, two lines fail with an index error on line 2 |
| `Text.Strip` | afancontrol/temp.py:92 | `str.strip()`: removes every leading and trailing `isspace` character; see `Text.StripEmptyIffBlank`, `Text.StripShape` and `Text.StripIdempotent` |
| `Text.SplitNewline` | afancontrol/temp.py:118 | `str.split("\n")`: at least one piece, none holding a line break; see `Text.JoinSplit` and `Text.SplitJoin` |
| `Text.ParseInt` | afancontrol/temp.py:92 | `int()` on stripped text: an optional sign and ASCII digits, else a failure; see `Text.ParseShowInt` |
| `Text.ShowInt` | afancontrol/temp.py:92 | `str()` on an integer, the partner of `Text.ParseInt`; see `Text.ParseShowInt` and `Text.StripShownLine` |
| `Text.StripEmptyIffBlank` | afancontrol/temp.py:173 | `line.strip()` is empty iff the line is all whitespace, which is the blank-line test |
| `Text.StripIdempotent` | afancontrol/temp.py:117 | stripping is idempotent: a stripped line strips to itself, the partner property of `str.strip()` |
| `Text.JoinSplit` | afancontrol/temp.py:118 | joining the pieces of `split("\n")` with line breaks gives back the output |
| `Text.SplitJoin` | afancontrol/temp.py:172 | splitting a join of break-free lines gives back the lines |
| `Text.ParseShowInt` | afancontrol/temp.py:92 | `int()` of a printed integer gives the integer back |
| `Text.StripShownLine` | afancontrol/temp.py:92 | a printed integer followed by a line break strips to the printed integer |
| `PwmFanNorm.GetRaw` | tests/test_pwmfan.py:72-73 | `_get_raw`: the duty in `pwmN`; see `PwmFanNorm.TestGetSetPwmfan` |
| `PwmFanNorm.GetSpeed` | tests/test_pwmfan.py:42-44 | `get_speed`: the reading in `fanN_input`; see `PwmFanNorm.TestGetSpeed` |
| `PwmFanNorm.SetRaw` | tests/test_pwmfan.py:68-82 | a raw write succeeds iff 0 <= v <= 255; it then reads back as `v` with the other files untouched; otherwise it raises ValueError and leaves every file as it was |
| `PwmFanNorm.SetFullSpeed` | tests/test_pwmfan.py:75-76 | full speed writes 255 and nothing else |
| `PwmFanNorm.SpeedToPwm` | tests/test_pwmfan.py:85-99 | the mapped duty is in 0..255 and is 0 or inside the line range; requests at or above 1 give the line end; at or below 0 give 0; any positive request gives at least the line start |
| `PwmFanNorm.ScaledCeilMonotonic` | tests/test_pwmfan.py:85-99 | scaling by the line end and rounding up keeps the order of two fractions |
| `PwmFanNorm.SpeedToPwmMonotonic` | tests/test_pwmfan.py:85-99 | a faster request never maps to a slower duty |
| `PwmFanNorm.Set` | tests/test_pwmfan.py:95-99 | `set(x)` writes and returns the duty the mapping gives for `x`; that duty is in range and is 0 or inside the line range; only the duty file changes |
| `PwmFanNorm.Get` | tests/test_pwmfan.py:89-90 | `get` times 255 is the raw duty, so an in-range duty reads as a fraction in [0, 1] |
| `PwmFanNorm.GetAfterSet` | tests/test_pwmfan.py:85-90 | after `set`, `get` reports the written duty over 255 |
| `PwmFanNorm.Enter` | tests/test_pwmfan.py:55-58 | entering leaves enable=1 and duty 255, with the tachometer untouched |
| `PwmFanNorm.Exit` | tests/test_pwmfan.py:61-65 | exiting leaves enable=0, the duty as the scope last set it, and the body's completion unchanged, exception included |
| `PwmFanNorm.TestGetSpeed` | tests/test_pwmfan.py:42-44 | the tachometer value 721 is read as 721 |
| `PwmFanNorm.TestGetSetPwmfan` | tests/test_pwmfan.py:68-82 | 142 is stored verbatim, 132 reads back, full speed is 255, and 256 and -1 are refused with the duty unchanged |
| `PwmFanNorm.TestGetSetPwmfanNorm` | tests/test_pwmfan.py:85-99 | `set(0.42)` writes 101; raw 132 reads as 0.517 within 1%; `set(1.1)` returns and writes 240; `set(-0.1)` returns and writes 0 |
| `PwmFanNorm.TestEnterExit` | tests/test_pwmfan.py:47-65 | enter gives enable=1 and duty 255; `set(0.39)` inside writes 100; exit on the normal and the exception path gives enable=0 and duty 100, and the body's outcome propagates |
| `Arduino.GetSpeed` | src/afancontrol/pwmfan/arduino.py:20-21 | `get_speed`: the rpm of the tacho pin; see `Arduino.GetSpeedReadsTachoPin` |
| `Arduino.GetSpeedReadsTachoPin` | src/afancontrol/pwmfan/arduino.py:20-21 | `get_speed` reports the rpm stored for the tacho pin, and rpm changes on other pins do not affect it |
| `Arduino.ReaderEnter` | src/afancontrol/pwmfan/arduino.py:23-25 | the readers' enter adds one connection holder and changes nothing else |
| `Arduino.ReaderExit` | src/afancontrol/pwmfan/arduino.py:27-28 | the readers' exit removes one connection holder, changes nothing else, and passes the body's completion through |
| `Arduino.ReaderReusable` | src/afancontrol/pwmfan/arduino.py:46-51 | any number of nested enters followed by as many exits restores the connection exactly |
| `Arduino.ReadGet` | src/afancontrol/pwmfan/arduino.py:43-44 | `get`: the pwm of the configured pin; see `Arduino.ReadGetReadsPwmPin` |
| `Arduino.ReadGetReadsPwmPin` | src/afancontrol/pwmfan/arduino.py:43-44 | `get` reports what the board last reported for the configured pin: after a status report, the report's value for that pin, or a failure when the report has none; commands sent do not affect it |
| `Arduino.SetRaw` | src/afancontrol/pwmfan/arduino.py:65-66 | `_set_raw(v)` either sends exactly the command `(pin, v)` or raises with nothing sent; the readings and the depth are unchanged |
| `Arduino.SetFullSpeed` | src/afancontrol/pwmfan/arduino.py:34-35 | full speed sends exactly `(pin, 255)`, the declared maximum, or raises with nothing sent |
| `Arduino.WriteEnter` | src/afancontrol/pwmfan/arduino.py:68-71 | the writer's enter opens the connection once on every path; it completes normally iff the full-speed command was sent; when that write raises, the connection stays held |
| `Arduino.WriteExit` | src/afancontrol/pwmfan/arduino.py:73-83 | the connection is released on every path; the full-speed command is sent before the wait, and a failing send raises before any wait; a failed wait raises and leaves the readings as they were; a completed wait replaces every pwm and rpm reading with the board's report; the pin's reported pwm, when at least 255, passes the body's completion through, a lower one raises RuntimeError, and a report without the pin raises |
| `Arduino.WriteExitNormalIff` | src/afancontrol/pwmfan/arduino.py:74-81 | exit completes normally iff the body did, the full-speed command went out and the board's report gives the pin a pwm of at least 255; a body exception is never swallowed |
| `Arduino.WriteExitWaitsAfterSend` | src/afancontrol/pwmfan/arduino.py:75-76 | when the full-speed write raises, how the wait would have ended does not matter: it is never reached |
| `Arduino.BodyWrites` | src/afancontrol/pwmfan/arduino.py:65-66 | a series of `_set_raw` calls sends their commands in order and keeps the depth and the readings |
| `Arduino.WithWrite` | src/afancontrol/pwmfan/arduino.py:68-83 | a whole `with` block: a raising enter leaves the connection held and runs nothing else; otherwise the connection ends as held as before, and the commands are full speed, then the body's writes, then, when the exit's send goes out, full speed again, which is then the pin's last command; the block completes normally iff every step did and the board's report gives the pin a pwm of at least 255; the readings end as the board's report when the exit's wait completed, and as before otherwise |

## Left out

- The `hddtemp` invocation, `exec_shell_command` and the command string format
  (afancontrol/temp.py:134-137). The model receives a command's captured output as a
  string. A command that fails to run is not modelled.
- File I/O through `Path`. A missing file is an absent key in the map; other I/O
  errors are not modelled.
- The grammar of Python's `float()` (inf, nan, exponents, underscores) and float
  rounding. `float()` is an abstract parser, and arithmetic is exact, so `int / 1000`
  is exact division and NaN comparisons do not arise.
- `Text.ParseInt`: does not accept the underscores or non-ASCII digits that Python's
  `int()` allows. The model reads an optional sign followed by ASCII digits.
- `__repr__` methods.
- `PwmFanNorm.SpeedToPwm`: the rounding rule is inferred from the four test points,
  because the class that implements it is not part of this model. The rule clamps to
  [0, 1], rounds `x * line_end` up, and raises positive results below the line start
  to the line start.
- The `never_stop=True` branch of `PWMFanNorm` and the file-backed `PWMFan` class.
  Neither is part of this model, and the tests use `never_stop=False` only.
- The internals of `ArduinoConnection`: serial framing, status polling and timing.
  - `set_pwm` either goes out, which logs the command, or raises before anything
    is sent. It does not change the pin store: only the board's status report does.
    A failing write inside the `with` body is modelled only as the body's exception.
  - `wait_for_status` either fails or brings an arbitrary status report, which
    replaces every pwm and rpm reading.
  - Reading a pin with no stored value fails with `NoStatus`.
- `Arduino.ReadGet`, `Arduino.WriteExit`: the `int()` conversions of the reported
  pwm (src/afancontrol/pwmfan/arduino.py:44 and :78) are folded into the store,
  which holds integers already, so the `>= 255` comparison is made on the stored
  value. A non-integral or non-numeric report is not modelled.
- `Arduino.ConnExit`: requires the connection to be held. Python's `with` statement
  calls `__exit__` only after `__enter__` has succeeded, and the connection's own
  handling of a surplus exit is not part of this model.
- Concurrency and the control loop that calls these objects.

=== FILE: arduino.dfy ===
/** The Arduino-backed fan (src/afancontrol/pwmfan/arduino.py): a tachometer
    reader, a PWM reader and a PWM writer that address pins of a microcontroller
    through one shared connection.

    The connection is abstract: a store holding the pwm and rpm value per pin as
    the board last reported them, the number of `with` scopes that currently hold
    it open, and the log of `set_pwm` commands sent. A `set_pwm` either goes out
    or raises; it does not change the store, which only the board's next status
    report does. Waiting for that report either fails or yields an arbitrary pwm
    value for the pin, which is what the writer reads back. */
module Arduino {
  import opened Wrappers

  /** An Arduino pin number. */
  type Pin = int

  /** `ArduinoFanPWMRead.max_pwm`: the duty that means full speed. */
  const MaxPwm: int := 255

  /** A `set_pwm` command as sent to the board. */
  datatype Command = SetPwmCmd(pin: Pin, value: int)

  /** The shared connection: per-pin pwm and rpm readings as last reported, how
      many open scopes hold it, and every `set_pwm` command sent so far. */
  datatype Connection = Connection(pwm: map<Pin, int>, rpm: map<Pin, int>, depth: nat, sent: seq<Command>)

  /** The exceptions that leave these objects. */
  datatype ArduinoError =
    | NoStatus(pin: Pin)    // the connection has no reading for the pin
    | SendFailed(pin: Pin)  // `set_pwm` raised
    | WaitFailed            // `wait_for_status` raised
    | RuntimeError          // the fan did not return to full speed on release
    | BodyError(tag: nat)   // whatever the body of the `with` raised

  /** What one `set_pwm` call does: reach the board, or raise. */
  datatype Send = Delivered | Broken

  /** What `wait_for_status` does: fail, or bring the board's next status report,
      which replaces every pwm and rpm reading. */
  datatype Settle = Settled(pwm: map<Pin, int>, rpm: map<Pin, int>) | TimedOut

  // ---------------------------------------------------------------------------
  // The connection primitives
  // ---------------------------------------------------------------------------

  /** `get_pwm(pin)`. */
  function GetPwm(c: Connection, pin: Pin): Result<int, ArduinoError> {
    if pin in c.pwm then Success(c.pwm[pin]) else Failure(NoStatus(pin))
  }

  /** `get_rpm(pin)`. */
  function GetRpm(c: Connection, pin: Pin): Result<int, ArduinoError> {
    if pin in c.rpm then Success(c.rpm[pin]) else Failure(NoStatus(pin))
  }

  /** A `set_pwm(pin, v)` that goes out: the command is logged; the readings
      stay as the board last reported them. */
  function Deliver(c: Connection, pin: Pin, v: int): Connection {
    c.(sent := c.sent + [SetPwmCmd(pin, v)])
  }

  /** `set_pwm(pin, v)`, which either reaches the board or raises before anything
      is sent. */
  function SetPwm(c: Connection, pin: Pin, v: int, send: Send): Result<Connection, ArduinoError> {
    match send
    case Delivered => Success(Deliver(c, pin, v))
    case Broken => Failure(SendFailed(pin))
  }

  /** A status report from the board: the readings become the reported ones, and
      no command is sent. */
  function Report(c: Connection, pwm: map<Pin, int>, rpm: map<Pin, int>): Connection {
    c.(pwm := pwm, rpm := rpm)
  }

  /** The connection's `__enter__`: one more holder. */
  function ConnEnter(c: Connection): Connection {
    c.(depth := c.depth + 1)
  }

  /** The connection's `__exit__`: one holder fewer. */
  function ConnExit(c: Connection): Connection
    requires c.depth > 0
  {
    c.(depth := c.depth - 1)
  }

  // ---------------------------------------------------------------------------
  // ArduinoFanSpeed
  // ---------------------------------------------------------------------------

  datatype FanSpeed = FanSpeed(tachoPin: Pin)

  /** `ArduinoFanSpeed.get_speed`: the connection's rpm for the tacho pin. */
  function GetSpeed(s: FanSpeed, c: Connection): Result<int, ArduinoError> {
    GetRpm(c, s.tachoPin)
  }

  /** The speed reader reads its own pin and no other: a new rpm on the tacho pin
      is what it reports, and a new rpm on any other pin, or a command sent, does
      not change it. */
  lemma GetSpeedReadsTachoPin(s: FanSpeed, c: Connection, q: Pin, v: int)
    ensures GetSpeed(s, c.(rpm := c.rpm[s.tachoPin := v])) == Success(v)
    ensures q != s.tachoPin ==> GetSpeed(s, c.(rpm := c.rpm[q := v])) == GetSpeed(s, c)
    ensures GetSpeed(s, Deliver(c, q, v)) == GetSpeed(s, c)
  {
  }

  /** `__enter__` of the speed and PWM readers: open the connection, nothing else. */
  function ReaderEnter(c: Connection): (d: Connection)
    ensures d.depth == c.depth + 1 && d.pwm == c.pwm && d.rpm == c.rpm && d.sent == c.sent
  {
    ConnEnter(c)
  }

  /** `__exit__` of the speed and PWM readers: release the connection, nothing
      else; returning None lets the body's exception through. */
  function ReaderExit(c: Connection, body: Completion<ArduinoError>): (r: (Connection, Completion<ArduinoError>))
    requires c.depth > 0
    ensures r.0.depth == c.depth - 1 && r.0.pwm == c.pwm && r.0.rpm == c.rpm && r.0.sent == c.sent
    ensures r.1 == body
  {
    (ConnExit(c), body)
  }

  /** The readers are reusable: any number of enters followed by as many exits
      leaves the connection as it was. */
  lemma {:induction false} ReaderReusable(c: Connection, n: nat, body: Completion<ArduinoError>)
    ensures ReaderExitN(ReaderEnterN(c, n), n, body) == (c, body)
    decreases n
  {
    if n > 0 {
      var inner := ReaderEnterN(c, n - 1);
      assert ReaderExit(ReaderEnter(inner), body) == (inner, body);
      ReaderReusable(c, n - 1, body);
    }
  }

  /** `n` nested enters. */
  function ReaderEnterN(c: Connection, n: nat): (d: Connection)
    ensures d.depth == c.depth + n
  {
    if n == 0 then c else ReaderEnter(ReaderEnterN(c, n - 1))
  }

  /** `n` nested exits. */
  function ReaderExitN(c: Connection, n: nat, body: Completion<ArduinoError>): (Connection, Completion<ArduinoError>)
    requires c.depth >= n
    decreases n
  {
    if n == 0 then (c, body) else
      var (d, b) := ReaderExit(c, body);
      ReaderExitN(d, n - 1, b)
  }

  // ---------------------------------------------------------------------------
  // ArduinoFanPWMRead
  // ---------------------------------------------------------------------------

  datatype PwmRead = PwmRead(pwmPin: Pin)

  /** `ArduinoFanPWMRead.get`: the connection's pwm for the configured pin. */
  function ReadGet(r: PwmRead, c: Connection): Result<int, ArduinoError> {
    GetPwm(c, r.pwmPin)
  }

  /** The PWM reader reports what the board last reported for its configured pin:
      after a report it returns the report's value for that pin, or raises when
      the report has none; a command sent, even to its own pin, changes nothing. */
  lemma ReadGetReadsPwmPin(r: PwmRead, c: Connection, pwm: map<Pin, int>, rpm: map<Pin, int>, q: Pin, v: int)
    ensures r.pwmPin in pwm ==> ReadGet(r, Report(c, pwm, rpm)) == Success(pwm[r.pwmPin])
    ensures r.pwmPin !in pwm ==> ReadGet(r, Report(c, pwm, rpm)) == Failure(NoStatus(r.pwmPin))
    ensures ReadGet(r, Deliver(c, q, v)) == ReadGet(r, c)
  {
  }

  // ---------------------------------------------------------------------------
  // ArduinoFanPWMWrite
  // ---------------------------------------------------------------------------

  datatype PwmWrite = PwmWrite(pwmPin: Pin) {
    /** The reader for the same pin (`read_cls`). */
    function Reader(): PwmRead {
      PwmRead(pwmPin)
    }
  }

  /** `_set_raw`: either exactly the one command `(pin, v)` goes out, or it raises
      and nothing is sent. The readings and the depth never change. */
  function SetRaw(w: PwmWrite, c: Connection, v: int, send: Send): (r: Result<Connection, ArduinoError>)
    ensures r.Success? <==> send.Delivered?
    ensures r.Success? ==> r.value.sent == c.sent + [SetPwmCmd(w.pwmPin, v)]
    ensures r.Success? ==> r.value.pwm == c.pwm && r.value.rpm == c.rpm && r.value.depth == c.depth
    ensures r.Failure? ==> r.error == SendFailed(w.pwmPin)
  {
    SetPwm(c, w.pwmPin, v, send)
  }

  /** `set_full_speed`: `_set_raw` with the reader's maximum. */
  function SetFullSpeed(w: PwmWrite, c: Connection, send: Send): (r: Result<Connection, ArduinoError>)
    ensures r.Success? <==> send.Delivered?
    ensures r.Success? ==> r.value.sent == c.sent + [SetPwmCmd(w.pwmPin, MaxPwm)]
    ensures r.Success? ==> r.value.pwm == c.pwm && r.value.rpm == c.rpm && r.value.depth == c.depth
    ensures r.Failure? ==> r.error == SendFailed(w.pwmPin)
  {
    SetRaw(w, c, MaxPwm, send)
  }

  /** `ArduinoFanPWMWrite.__enter__`: open the connection, then run at full speed.
      The connection stays held even when the full-speed write raises: that
      exception leaves `__enter__`, so the `with` statement never calls `__exit__`. */
  function WriteEnter(w: PwmWrite, c: Connection, send: Send): (r: (Connection, Completion<ArduinoError>))
    ensures r.0.depth == c.depth + 1 && r.0.pwm == c.pwm && r.0.rpm == c.rpm
    ensures r.1.Normal? <==> send.Delivered?
    ensures send.Delivered? ==> r.0.sent == c.sent + [SetPwmCmd(w.pwmPin, MaxPwm)]
    ensures send.Broken? ==> r.1 == Raised(SendFailed(w.pwmPin)) && r.0.sent == c.sent
  {
    var held := ConnEnter(c);
    match SetFullSpeed(w, held, send)
    case Success(d) => (d, Normal)
    case Failure(e) => (held, Raised(e))
  }

  /** `ArduinoFanPWMWrite.__exit__`. Inside the `try`: send full speed, wait for
      the board to report, and succeed when the reported pwm of the pin is at
      least the maximum, else raise RuntimeError (or NoStatus when the report has
      no pwm for the pin). In the `finally`: release the connection,
      whichever step raised. Succeeding returns None, so the body's own exception
      propagates; an exception raised here replaces it. */
  function WriteExit(w: PwmWrite, c: Connection, body: Completion<ArduinoError>, send: Send, settle: Settle): (r: (Connection, Completion<ArduinoError>))
    requires c.depth > 0
    ensures r.0.depth == c.depth - 1
    ensures send.Broken? ==> r.1 == Raised(SendFailed(w.pwmPin)) && r.0.sent == c.sent
    ensures send.Broken? || settle.TimedOut? ==> r.0.pwm == c.pwm && r.0.rpm == c.rpm
    ensures send.Delivered? ==> r.0.sent == c.sent + [SetPwmCmd(w.pwmPin, MaxPwm)]
    ensures send.Delivered? && settle.TimedOut? ==> r.1 == Raised(WaitFailed)
    ensures send.Delivered? && settle.Settled? ==> r.0.pwm == settle.pwm && r.0.rpm == settle.rpm
    ensures send.Delivered? && settle.Settled? && w.pwmPin !in settle.pwm ==> r.1 == Raised(NoStatus(w.pwmPin))
    ensures send.Delivered? && settle.Settled? && w.pwmPin in settle.pwm ==>
              r.1 == if settle.pwm[w.pwmPin] >= MaxPwm then body else Raised(RuntimeError)
  {
    match SetFullSpeed(w, c, send)
    case Failure(e) =>
      (ConnExit(c), Raised(e))
    case Success(full) =>
      match settle
      case TimedOut =>
        (ConnExit(full), Raised(WaitFailed))
      case Settled(pwm, rpm) =>
        var reported := Report(full, pwm, rpm);
        var outcome :=
          match ReadGet(w.Reader(), reported)
          case Failure(e) => Raised(e)
          case Success(v) => if v >= MaxPwm then body else Raised(RuntimeError);
        (ConnExit(reported), outcome)
  }

  /** The write side's exit completes normally exactly when the body did, the
      full-speed command went out and the board reported full speed; an exception
      from the body is never swallowed. */
  lemma WriteExitNormalIff(w: PwmWrite, c: Connection, body: Completion<ArduinoError>, send: Send, settle: Settle)
    requires c.depth > 0
    ensures WriteExit(w, c, body, send, settle).1.Normal? <==>
      body.Normal? && send.Delivered? && settle.Settled? && w.pwmPin in settle.pwm && settle.pwm[w.pwmPin] >= MaxPwm
    ensures body.Raised? ==> WriteExit(w, c, body, send, settle).1.Raised?
  {
  }

  /** The wait comes after the full-speed write: when that write raises, the
      board is never waited on, so how the wait would have ended is irrelevant. */
  lemma WriteExitWaitsAfterSend(w: PwmWrite, c: Connection, body: Completion<ArduinoError>, s1: Settle, s2: Settle)
    requires c.depth > 0
    ensures WriteExit(w, c, body, Broken, s1) == WriteExit(w, c, body, Broken, s2)
  {
  }

  // ---------------------------------------------------------------------------
  // A whole `with` block on the writer
  // ---------------------------------------------------------------------------

  /** The `set_pwm` commands that writing each of `vs` to `pin` sends, in order. */
  function Commands(pin: Pin, vs: seq<int>): (cs: seq<Command>)
    ensures |cs| == |vs| && forall i :: 0 <= i < |vs| ==> cs[i] == SetPwmCmd(pin, vs[i])
  {
    seq(|vs|, i requires 0 <= i < |vs| => SetPwmCmd(pin, vs[i]))
  }

  /** What a `with` body does to the writer: a series of `_set_raw` calls that
      reach the board, then a normal end or an exception. */
  datatype Body = Body(writes: seq<int>, outcome: Completion<ArduinoError>)

  /** The body's `_set_raw` calls, one after the other. */
  function BodyWrites(w: PwmWrite, c: Connection, vs: seq<int>): (d: Connection)
    ensures d.depth == c.depth && d.pwm == c.pwm && d.rpm == c.rpm
    ensures d.sent == c.sent + Commands(w.pwmPin, vs)
    decreases |vs|
  {
    if |vs| == 0 then c
    else
      var next := Deliver(c, w.pwmPin, vs[0]);
      var d := BodyWrites(w, next, vs[1..]);
      CommandsCons(w.pwmPin, vs, c.sent);
      d
  }

  /** Writing `vs` sends the command for its first value, then the rest. */
  lemma CommandsCons(pin: Pin, vs: seq<int>, before: seq<Command>)
    requires |vs| > 0
    ensures before + Commands(pin, vs) == before + [SetPwmCmd(pin, vs[0])] + Commands(pin, vs[1..])
  {
    assert Commands(pin, vs) == [SetPwmCmd(pin, vs[0])] + Commands(pin, vs[1..]);
  }

  /** `with ArduinoFanPWMWrite(...): body`. When `__enter__` raises, the body and
      `__exit__` never run and the connection stays held. Otherwise the connection
      is released on every path out; when the exit's full-speed command is sent,
      it is the last command the pin received, whatever the body wrote. */
  function WithWrite(w: PwmWrite, c: Connection, enter: Send, body: Body, exit: Send, settle: Settle): (r: (Connection, Completion<ArduinoError>))
    ensures enter.Broken? ==> r.0.depth == c.depth + 1 && r.0.sent == c.sent && r.1 == Raised(SendFailed(w.pwmPin))
    ensures enter.Delivered? ==> r.0.depth == c.depth
    ensures enter.Delivered? ==>
      r.0.sent == c.sent + [SetPwmCmd(w.pwmPin, MaxPwm)] + Commands(w.pwmPin, body.writes)
                  + (if exit.Delivered? then [SetPwmCmd(w.pwmPin, MaxPwm)] else [])
    ensures enter.Delivered? && exit.Delivered? ==> r.0.sent[|r.0.sent| - 1] == SetPwmCmd(w.pwmPin, MaxPwm)
    ensures r.1.Normal? <==>
      enter.Delivered? && body.outcome.Normal? && exit.Delivered? && settle.Settled?
      && w.pwmPin in settle.pwm && settle.pwm[w.pwmPin] >= MaxPwm
    ensures enter.Delivered? && exit.Delivered? && settle.Settled? ==> r.0.pwm == settle.pwm && r.0.rpm == settle.rpm
    ensures !(enter.Delivered? && exit.Delivered? && settle.Settled?) ==> r.0.pwm == c.pwm && r.0.rpm == c.rpm
  {
    var (entered, started) := WriteEnter(w, c, enter);
    if started.Raised? then (entered, started)
    else
      var inside := BodyWrites(w, entered, body.writes);
      WriteExit(w, inside, body.outcome, exit, settle)
  }
}

=== FILE: pwmfan_norm.dfy ===
/** The normalised hwmon PWM fan, `PWMFanNorm`, as its tests fix it
    (tests/test_pwmfan.py).

    The fan is three files: `pwmN` with the raw duty 0..255, `pwmN_enable` with the
    manual-control flag, and `fanN_input` with the tachometer reading. The files are
    fields of a record. The class itself is not part of this model, so the mapping
    of a speed fraction onto a raw duty is a rule chosen to reproduce every test
    point (see `SpeedToPwm`), for `never_stop=False`, the only setting the tests use. */
module PwmFanNorm {
  import opened Wrappers

  /** The raw duty range the class declares. */
  const MinPwm: int := 0
  const MaxPwm: int := 255

  /** The contents of `pwmN`, `pwmN_enable` and `fanN_input`. */
  datatype FanFiles = FanFiles(pwm: int, enable: int, fanInput: int)

  /** `pwm_line_start` and `pwm_line_end`: the part of the raw range `set` maps onto. */
  datatype LineRange = LineRange(start: int, end: int)

  predicate ValidRange(l: LineRange) {
    MinPwm <= l.start < l.end <= MaxPwm
  }

  predicate InRange(v: int) {
    MinPwm <= v <= MaxPwm
  }

  /** The ValueError a raw write outside the range raises. */
  datatype PwmError = ValueError(pwm: int)

  /** The files after a write, and whether the write raised. */
  datatype Step = Step(files: FanFiles, outcome: Completion<PwmError>)

  // ---------------------------------------------------------------------------
  // Raw access
  // ---------------------------------------------------------------------------

  /** `_get_raw`: the duty in `pwmN`. */
  function GetRaw(f: FanFiles): int {
    f.pwm
  }

  /** `get_speed`: the tachometer reading in `fanN_input`. */
  function GetSpeed(f: FanFiles): int {
    f.fanInput
  }

  /** `_set_raw`: an in-range duty is written verbatim, so `_get_raw` reads it back,
      and no other file changes; an out-of-range duty raises ValueError before
      anything is written. */
  function SetRaw(f: FanFiles, v: int): (s: Step)
    ensures s.outcome.Normal? <==> InRange(v)
    ensures s.outcome.Normal? ==> GetRaw(s.files) == v
    ensures s.outcome.Normal? ==> s.files.enable == f.enable && GetSpeed(s.files) == GetSpeed(f)
    ensures s.outcome.Raised? ==> s.outcome.exc == ValueError(v) && s.files == f
  {
    if InRange(v) then Step(f.(pwm := v), Normal) else Step(f, Raised(ValueError(v)))
  }

  /** `set_full_speed`: writes the top of the raw range and nothing else. */
  function SetFullSpeed(f: FanFiles): (g: FanFiles)
    ensures GetRaw(g) == MaxPwm
    ensures g.enable == f.enable && GetSpeed(g) == GetSpeed(f)
  {
    SetRaw(f, MaxPwm).files
  }

  // ---------------------------------------------------------------------------
  // Normalised access
  // ---------------------------------------------------------------------------

  /** The least integer not below `r`. */
  function Ceil(r: real): (c: int)
    ensures r <= c as real < r + 1.0
  {
    -((-r).Floor)
  }

  /** `x` restricted to the unit interval. */
  function Clamp(x: real): (c: real)
    ensures 0.0 <= c <= 1.0
    ensures 0.0 <= x <= 1.0 ==> c == x
    ensures x >= 1.0 ==> c == 1.0
    ensures x <= 0.0 ==> c == 0.0
  {
    if x < 0.0 then 0.0 else if x > 1.0 then 1.0 else x
  }

  /** The raw duty `set` writes for the speed fraction `x`. This rule is inferred
      from the test points, not read from an implementation: clamp `x` to [0, 1],
      take the least integer not below `x * end`, and raise a positive result below
      the line start to the line start. Full speed and above give the line end,
      zero and below give a stopped fan, and every positive request runs the fan
      inside the line range. */
  function SpeedToPwm(l: LineRange, x: real): (p: int)
    requires ValidRange(l)
    ensures InRange(p)
    ensures p == 0 || l.start <= p <= l.end
    ensures x >= 1.0 ==> p == l.end
    ensures x <= 0.0 ==> p == 0
    ensures x > 0.0 ==> l.start <= p
  {
    var c := Clamp(x);
    ScaledCeilBounds(c, l.end);
    var q := ScaledCeil(c, l.end);
    if 0 < q < l.start then l.start else q
  }

  /** The least integer not below `c * n`. */
  function ScaledCeil(c: real, n: int): int {
    Ceil(c * n as real)
  }

  /** Where the least integer not below `c * n` lies, for `c` in the unit interval. */
  lemma ScaledCeilBounds(c: real, n: int)
    requires 0.0 <= c <= 1.0 && 0 < n
    ensures 0 <= ScaledCeil(c, n) <= n
    ensures c == 1.0 ==> ScaledCeil(c, n) == n
    ensures c == 0.0 ==> ScaledCeil(c, n) == 0
    ensures 0.0 < c ==> 0 < ScaledCeil(c, n)
  {
    var e := n as real;
    ScaleMonotonic(c, 1.0, e);
    ScaleMonotonic(0.0, c, e);
    CeilOfInteger(n);
    CeilOfInteger(0);
    CeilMonotonic(c * e, e);
    CeilMonotonic(0.0, c * e);
    PositiveProduct(c, e);
  }

  /** Scaling by a non-negative factor keeps the order. */
  lemma ScaleMonotonic(a: real, b: real, k: real)
    requires a <= b && 0.0 <= k
    ensures a * k <= b * k
  {
    assert b * k - a * k == (b - a) * k;
  }

  lemma PositiveProduct(a: real, b: real)
    ensures 0.0 < a && 0.0 < b ==> 0.0 < a * b
  {
  }

  lemma CeilOfInteger(n: int)
    ensures Ceil(n as real) == n
  {
  }

  lemma CeilMonotonic(a: real, b: real)
    requires a <= b
    ensures Ceil(a) <= Ceil(b)
  {
    assert (-b).Floor <= (-a).Floor;
  }

  /** Scaling and rounding up keep the order. */
  lemma ScaledCeilMonotonic(c1: real, c2: real, n: int)
    requires c1 <= c2 && 0 < n
    ensures ScaledCeil(c1, n) <= ScaledCeil(c2, n)
  {
    ScaleMonotonic(c1, c2, n as real);
    CeilMonotonic(c1 * n as real, c2 * n as real);
  }

  /** A faster request never writes a slower duty. */
  lemma SpeedToPwmMonotonic(l: LineRange, x1: real, x2: real)
    requires ValidRange(l)
    requires x1 <= x2
    ensures SpeedToPwm(l, x1) <= SpeedToPwm(l, x2)
  {
    ScaledCeilMonotonic(Clamp(x1), Clamp(x2), l.end);
  }

  /** `set`: writes the mapped duty through `_set_raw` and returns it. The write
      cannot raise, and it changes the duty only. */
  function Set(l: LineRange, f: FanFiles, x: real): (r: (int, FanFiles))
    requires ValidRange(l)
    ensures GetRaw(r.1) == r.0 && InRange(r.0)
    ensures r.1.enable == f.enable && GetSpeed(r.1) == GetSpeed(f)
    ensures r.0 == 0 || l.start <= r.0 <= l.end
    ensures r.0 == SpeedToPwm(l, x)
  {
    var p := SpeedToPwm(l, x);
    (p, SetRaw(f, p).files)
  }

  /** `get`: the raw duty as a fraction of the absolute maximum, not of the line
      range; a duty in the raw range gives a fraction in [0, 1]. */
  function Get(f: FanFiles): (x: real)
    ensures x * MaxPwm as real == GetRaw(f) as real
    ensures InRange(GetRaw(f)) ==> 0.0 <= x <= 1.0
  {
    f.pwm as real / MaxPwm as real
  }

  /** `get` after `set` reports the written duty over 255: the round trip keeps
      the raw value, though not the requested fraction. */
  lemma GetAfterSet(l: LineRange, f: FanFiles, x: real)
    requires ValidRange(l)
    ensures Get(Set(l, f, x).1) * MaxPwm as real == SpeedToPwm(l, x) as real
  {
  }

  // ---------------------------------------------------------------------------
  // Taking and releasing manual control
  // ---------------------------------------------------------------------------

  /** `__enter__`: switch to manual control, then run at full speed. */
  function Enter(f: FanFiles): (g: FanFiles)
    ensures g.enable == 1 && GetRaw(g) == MaxPwm && GetSpeed(g) == GetSpeed(f)
  {
    SetFullSpeed(f.(enable := 1))
  }

  /** `__exit__`: hand control back by clearing the flag. The duty is left as the
      scope last set it, and whatever the body raised still propagates. */
  function Exit<E>(f: FanFiles, body: Completion<E>): (r: (FanFiles, Completion<E>))
    ensures r.0.enable == 0 && GetRaw(r.0) == GetRaw(f) && GetSpeed(r.0) == GetSpeed(f)
    ensures r.1 == body
  {
    (f.(enable := 0), body)
  }

  // ---------------------------------------------------------------------------
  // The test fixtures and test points
  // ---------------------------------------------------------------------------

  /** The fixture fan: `pwm_line_start=100`, `pwm_line_end=240`. */
  const TestRange := LineRange(100, 240)

  /** The fixture files: duty 0, flag 0, tachometer 1300. */
  const TestFiles := FanFiles(0, 0, 1300)

  /** `test_get_speed`: the tachometer file is read as it stands. */
  lemma TestGetSpeed()
    ensures GetSpeed(TestFiles.(fanInput := 721)) == 721
  {
  }

  /** `test_get_set_pwmfan`: raw writes are verbatim, raw reads return the file,
      full speed is 255, and 256 and -1 are refused without touching the duty. */
  lemma TestGetSetPwmfan()
    ensures SetRaw(TestFiles, 142) == Step(TestFiles.(pwm := 142), Normal)
    ensures GetRaw(TestFiles.(pwm := 132)) == 132
    ensures GetRaw(SetFullSpeed(TestFiles)) == 255
    ensures SetRaw(TestFiles, 256) == Step(TestFiles, Raised(ValueError(256)))
    ensures SetRaw(TestFiles, -1) == Step(TestFiles, Raised(ValueError(-1)))
  {
  }

  /** `test_get_set_pwmfan_norm`: 0.42 writes 101 (0.42 * 240 = 100.8, rounded up),
      a duty of 132 reads as 0.517 within 1%, 1.1 is clamped to the line end 240,
      and -0.1 stops the fan. */
  lemma TestGetSetPwmfanNorm()
    ensures Set(TestRange, TestFiles, 0.42).1.pwm == 101
    ensures var x := Get(TestFiles.(pwm := 132)); -0.01 * 0.517 <= x - 0.517 <= 0.01 * 0.517
    ensures Set(TestRange, TestFiles, 1.1) == (240, TestFiles.(pwm := 240))
    ensures Set(TestRange, TestFiles, -0.1) == (0, TestFiles.(pwm := 0))
  {
    assert Ceil(0.42 * 240.0) == 101;
    assert Ceil(1.0 * 240.0) == 240;
    assert Ceil(0.0 * 240.0) == 0;
  }

  /** `test_enter_exit`: entering sets the flag and full speed; `set(0.39)` asks for
      93.6, below the line start, so it writes 100; leaving clears the flag, keeps
      100 and lets the body's exception through. */
  lemma TestEnterExit<E>(body: Completion<E>)
    ensures Enter(TestFiles).enable == 1 && GetRaw(Enter(TestFiles)) == 255
    ensures var inside := Set(TestRange, Enter(TestFiles), 0.39).1;
      var (after, outcome) := Exit(inside, body);
      after.enable == 0 && GetRaw(after) == 100 && outcome == body
  {
    assert Ceil(0.39 * 240.0) == 94;
  }
}

=== FILE: temp.dfy ===
/** Temperature sensors (afancontrol/temp.py).

    Every sensor produces a `(temp, min, max)` triple (`_get_temp`), and the shared
    `Temp.get` validates it and turns it into a `TempStatus` with the panic and
    threshold flags. Three sources produce the triple:
    - `FileTemp`: three sibling files holding milli-degrees;
    - `HDDTemp`: the output of the `hddtemp` utility, one reading per line;
    - `CommandTemp`: the output of an arbitrary shell command, by line position.

    Temperatures are exact reals. Reading a file becomes a lookup in a map from
    path to contents, running a command becomes its captured output, and Python's
    `float()` becomes an abstract parser `parse` that either yields a value or fails. */
module Temp {
  import opened Wrappers
  import opened Text

  /** Degrees Celsius. */
  type Celsius = real

  /** Python's `float()` on a stripped line: a value, or None for a ValueError. */
  type FloatParser = string -> Option<Celsius>

  /** The record `Temp.get` returns. */
  datatype TempStatus = TempStatus(
    temp: Celsius,
    min: Celsius,
    max: Celsius,
    panic: Option<Celsius>,
    threshold: Option<Celsius>,
    isPanic: bool,
    isThreshold: bool)

  /** The optional panic and threshold limits every sensor is configured with. */
  datatype Limits = Limits(panic: Option<Celsius>, threshold: Option<Celsius>)

  /** The triple `_get_temp` returns. */
  datatype Reading = Reading(temp: Celsius, min: Celsius, max: Celsius)

  /** The exceptions the sensors raise, one constructor per raise site. */
  datatype TempError =
    | MinNotBelowMax(min: Celsius, max: Celsius)  // RuntimeError from `get`
    | FileMissing(path: string)                   // read_text of an absent file
    | NotAnInteger(path: string)                  // ValueError from int()
    | NoValidTemperature                          // RuntimeError from HDDTemp
    | NotAFloat(line: string)                     // ValueError from float()
    | LineMissing(index: nat)                     // IndexError from temps[index]

  // ---------------------------------------------------------------------------
  // Temp.get
  // ---------------------------------------------------------------------------

  /** A limit is reached when it is configured and the temperature is at or above it. */
  predicate Reached(temp: Celsius, limit: Option<Celsius>) {
    limit.Some? && temp >= limit.value
  }

  /** What holds of every status `get` hands out: a proper range, and flags that
      agree with the limits. */
  predicate WellFormed(s: TempStatus) {
    && s.min < s.max
    && s.isPanic == Reached(s.temp, s.panic)
    && s.isThreshold == Reached(s.temp, s.threshold)
  }

  /** The status reports the reading and the limits as they were, with nothing
      swapped, clamped or rounded. */
  predicate Carries(s: TempStatus, r: Reading, limits: Limits) {
    && s.temp == r.temp && s.min == r.min && s.max == r.max
    && s.panic == limits.panic && s.threshold == limits.threshold
  }

  /** `Temp.get` applied to the triple its `_get_temp` produced. */
  function Get(r: Reading, limits: Limits): (res: Result<TempStatus, TempError>)
    ensures res.Failure? <==> !(r.min < r.max)
    ensures res.Failure? ==> res.error == MinNotBelowMax(r.min, r.max)
    ensures res.Success? ==> WellFormed(res.value) && Carries(res.value, r, limits)
  {
    if !(r.min < r.max) then
      Failure(MinNotBelowMax(r.min, r.max))
    else
      Success(TempStatus(
        r.temp, r.min, r.max, limits.panic, limits.threshold,
        limits.panic.Some? && r.temp >= limits.panic.value,
        limits.threshold.Some? && r.temp >= limits.threshold.value))
  }

  /** The status is the only well-formed record carrying the reading and limits:
      `get` succeeds with `s` exactly when the range is proper and `s` is that record. */
  lemma GetCharacterised(r: Reading, limits: Limits, s: TempStatus)
    ensures Get(r, limits) == Success(s) <==> r.min < r.max && WellFormed(s) && Carries(s, r, limits)
  {
  }

  // ---------------------------------------------------------------------------
  // FileTemp
  // ---------------------------------------------------------------------------

  datatype FileTempConfig = FileTempConfig(
    tempPath: string,
    min: Option<Celsius>,
    max: Option<Celsius>,
    limits: Limits)

  /** The three sibling files of one sensor. */
  datatype SensorPaths = SensorPaths(input: string, min: string, max: string)

  /** The file system: the text of every readable file, by path. */
  type Files = map<string, string>

  predicate EndsWith(s: string, suffix: string) {
    |suffix| <= |s| && s[|s| - |suffix|..] == suffix
  }

  /** `re.sub(r"_input$", "", p)`. Python's `$` matches at the very end and also
      just before a final line break, so both endings are removed. */
  function BasePath(p: string): string {
    if EndsWith(p, "_input") then p[..|p| - 6]
    else if EndsWith(p, "_input\n") then p[..|p| - 7] + "\n"
    else p
  }

  /** The `_input`, `_min` and `_max` paths derived in `FileTemp.__init__`. */
  function PathsOf(p: string): SensorPaths {
    var b := BasePath(p);
    SensorPaths(b + "_input", b + "_min", b + "_max")
  }

  /** Naming the `_input` file itself gives back the base. */
  lemma BasePathDropsInputSuffix(p: string)
    ensures BasePath(p + "_input") == p
  {
    assert (p + "_input")[..|p|] == p;
  }

  /** The `$` of the pattern also matches before a final line break. */
  lemma BasePathBeforeLineBreak(p: string)
    ensures BasePath(p + "_input\n") == p + "\n"
  {
    var s := p + "_input\n";
    assert s[|s| - 1] == '\n';
    assert !EndsWith(s, "_input");
    assert s[..|s| - 7] == p;
  }

  /** The base and the base's `_input` file configure the same sensor. */
  lemma PathsIgnoreInputSuffix(p: string)
    requires !EndsWith(p, "_input") && !EndsWith(p, "_input\n")
    ensures PathsOf(p) == PathsOf(p + "_input")
  {
    BasePathDropsInputSuffix(p);
  }

  /** The three derived paths are different files. */
  lemma SensorPathsDistinct(p: string)
    ensures PathsOf(p).input != PathsOf(p).min
    ensures PathsOf(p).input != PathsOf(p).max
    ensures PathsOf(p).min != PathsOf(p).max
  {
    var b := BasePath(p);
    assert (b + "_min")[|b| + 2] == 'i';
    assert (b + "_max")[|b| + 2] == 'a';
  }

  /** `_read_temp_from_path`: the stripped text as an integer, in thousandths. */
  function ReadTempFromPath(fs: Files, path: string): Result<Celsius, TempError> {
    if path !in fs then Failure(FileMissing(path))
    else match ParseInt(Strip(fs[path]))
      case None => Failure(NotAnInteger(path))
      case Some(n) => Success(n as real / 1000.0)
  }

  /** The file at `path` holds the integer `n`, possibly surrounded by
      whitespace. */
  predicate HoldsMilli(fs: Files, path: string, n: int) {
    path in fs && Strip(fs[path]) == ShowInt(n)
  }

  /** A file holding the milli-degree value `n` reads as `n / 1000`. */
  lemma ReadTempFromPathValue(fs: Files, path: string, n: int)
    requires HoldsMilli(fs, path, n)
    ensures ReadTempFromPath(fs, path) == Success(n as real / 1000.0)
  {
    ParseShowInt(n);
  }

  /** The way sysfs writes a value, one integer and a line break, holds it. */
  lemma SysfsLineHoldsMilli(fs: Files, path: string, n: int)
    requires path in fs && fs[path] == ShowInt(n) + "\n"
    ensures HoldsMilli(fs, path, n)
  {
    StripShownLine(n);
  }

  /** `FileTemp._get_min`: the configured value, else the `_min` file. */
  function FileMin(cfg: FileTempConfig, fs: Files): Result<Celsius, TempError> {
    if cfg.min.None? then ReadTempFromPath(fs, PathsOf(cfg.tempPath).min) else Success(cfg.min.value)
  }

  /** `FileTemp._get_max`: the configured value, else the `_max` file. */
  function FileMax(cfg: FileTempConfig, fs: Files): Result<Celsius, TempError> {
    if cfg.max.None? then ReadTempFromPath(fs, PathsOf(cfg.tempPath).max) else Success(cfg.max.value)
  }

  /** `FileTemp._get_temp`: the `_input` file, then min, then max. */
  function FileTempReading(cfg: FileTempConfig, fs: Files): Result<Reading, TempError> {
    var t :- ReadTempFromPath(fs, PathsOf(cfg.tempPath).input);
    var lo :- FileMin(cfg, fs);
    var hi :- FileMax(cfg, fs);
    Success(Reading(t, lo, hi))
  }

  /** With sysfs-style files in place, the reading is the `_input` value over 1000,
      and each bound is the configured value when there is one, the file's value
      over 1000 otherwise. */
  lemma FileTempValues(cfg: FileTempConfig, fs: Files, t: int, lo: int, hi: int)
    requires HoldsMilli(fs, PathsOf(cfg.tempPath).input, t)
    requires cfg.min.None? ==> HoldsMilli(fs, PathsOf(cfg.tempPath).min, lo)
    requires cfg.max.None? ==> HoldsMilli(fs, PathsOf(cfg.tempPath).max, hi)
    ensures FileTempReading(cfg, fs) == Success(Reading(
      t as real / 1000.0,
      cfg.min.GetOr(lo as real / 1000.0),
      cfg.max.GetOr(hi as real / 1000.0)))
  {
    var ps := PathsOf(cfg.tempPath);
    var temp, lo', hi' := t as real / 1000.0, cfg.min.GetOr(lo as real / 1000.0), cfg.max.GetOr(hi as real / 1000.0);
    assert ReadTempFromPath(fs, ps.input) == Success(temp) by {
      ReadTempFromPathValue(fs, ps.input, t);
    }
    assert FileMin(cfg, fs) == Success(lo') by {
      if cfg.min.None? {
        ReadTempFromPathValue(fs, ps.min, lo);
      }
    }
    assert FileMax(cfg, fs) == Success(hi') by {
      if cfg.max.None? {
        ReadTempFromPathValue(fs, ps.max, hi);
      }
    }
    FileTempReadingOfParts(cfg, fs, temp, lo', hi');
  }

  /** The reading assembled from its three successful parts. */
  lemma FileTempReadingOfParts(cfg: FileTempConfig, fs: Files, temp: Celsius, lo: Celsius, hi: Celsius)
    requires ReadTempFromPath(fs, PathsOf(cfg.tempPath).input) == Success(temp)
    requires FileMin(cfg, fs) == Success(lo) && FileMax(cfg, fs) == Success(hi)
    ensures FileTempReading(cfg, fs) == Success(Reading(temp, lo, hi))
  {
  }

  /** A configured minimum means the `_min` file is never read: whatever it holds,
      or whether it exists at all, does not change the reading. */
  lemma FileTempConfiguredMinSkipsFile(cfg: FileTempConfig, fs: Files, text: string)
    requires cfg.min.Some?
    ensures FileTempReading(cfg, fs[PathsOf(cfg.tempPath).min := text]) == FileTempReading(cfg, fs)
    ensures FileTempReading(cfg, fs - {PathsOf(cfg.tempPath).min}) == FileTempReading(cfg, fs)
  {
    var ps := PathsOf(cfg.tempPath);
    SensorPathsDistinct(cfg.tempPath);
    assert ReadTempFromPath(fs[ps.min := text], ps.input) == ReadTempFromPath(fs, ps.input);
    assert ReadTempFromPath(fs - {ps.min}, ps.input) == ReadTempFromPath(fs, ps.input);
    assert FileMax(cfg, fs[ps.min := text]) == FileMax(cfg, fs);
    assert FileMax(cfg, fs - {ps.min}) == FileMax(cfg, fs);
  }

  /** A configured maximum means the `_max` file is never read. */
  lemma FileTempConfiguredMaxSkipsFile(cfg: FileTempConfig, fs: Files, text: string)
    requires cfg.max.Some?
    ensures FileTempReading(cfg, fs[PathsOf(cfg.tempPath).max := text]) == FileTempReading(cfg, fs)
    ensures FileTempReading(cfg, fs - {PathsOf(cfg.tempPath).max}) == FileTempReading(cfg, fs)
  {
    var ps := PathsOf(cfg.tempPath);
    SensorPathsDistinct(cfg.tempPath);
    assert ReadTempFromPath(fs[ps.max := text], ps.input) == ReadTempFromPath(fs, ps.input);
    assert ReadTempFromPath(fs - {ps.max}, ps.input) == ReadTempFromPath(fs, ps.input);
    assert FileMin(cfg, fs[ps.max := text]) == FileMin(cfg, fs);
    assert FileMin(cfg, fs - {ps.max}) == FileMin(cfg, fs);
  }

  /** Without a configured minimum, a missing `_min` file is an error, even when
      the temperature itself was read. */
  lemma FileTempMissingMinFile(cfg: FileTempConfig, fs: Files)
    requires cfg.min.None?
    requires ReadTempFromPath(fs, PathsOf(cfg.tempPath).input).Success?
    requires PathsOf(cfg.tempPath).min !in fs
    ensures FileTempReading(cfg, fs) == Failure(FileMissing(PathsOf(cfg.tempPath).min))
  {
  }

  // ---------------------------------------------------------------------------
  // HDDTemp
  // ---------------------------------------------------------------------------

  /** The disk path and the `hddtemp` binary only shape the command line, so the
      model keeps the mandatory bounds and the limits. */
  datatype HddTempConfig = HddTempConfig(min: Celsius, max: Celsius, limits: Limits)

  /** `HDDTemp._is_float`: non-empty and accepted by `float()`. */
  predicate IsFloat(parse: FloatParser, s: string) {
    s != [] && parse(s).Some?
  }

  /** `line` is a numeric line of the output and its value is `x`. */
  predicate ParsesTo(parse: FloatParser, line: string, x: Celsius) {
    IsFloat(parse, Strip(line)) && parse(Strip(line)).value == x
  }

  /** The list comprehension of `HDDTemp._get_temp`: the values of the lines
      that parse, in order. */
  function NumericValues(parse: FloatParser, lines: seq<string>): seq<Celsius>
    decreases |lines|
  {
    if |lines| == 0 then []
    else
      var s := Strip(lines[0]);
      (if IsFloat(parse, s) then [parse(s).value] else []) + NumericValues(parse, lines[1..])
  }

  /** A value is collected exactly when some line parses to it. */
  lemma {:induction false} NumericValuesMembers(parse: FloatParser, lines: seq<string>, x: Celsius)
    ensures x in NumericValues(parse, lines) <==> exists i :: 0 <= i < |lines| && ParsesTo(parse, lines[i], x)
    decreases |lines|
  {
    if |lines| > 0 {
      NumericValuesMembers(parse, lines[1..], x);
      if x in NumericValues(parse, lines[1..]) {
        var i :| 0 <= i < |lines[1..]| && ParsesTo(parse, lines[1..][i], x);
        assert ParsesTo(parse, lines[i + 1], x);
      }
      if exists i :: 0 <= i < |lines| && ParsesTo(parse, lines[i], x) {
        var i :| 0 <= i < |lines| && ParsesTo(parse, lines[i], x);
        if i > 0 {
          assert ParsesTo(parse, lines[1..][i - 1], x);
        }
      }
    }
  }

  /** Nothing is collected exactly when no line parses. */
  lemma {:induction false} NumericValuesEmpty(parse: FloatParser, lines: seq<string>)
    ensures NumericValues(parse, lines) == [] <==> forall i :: 0 <= i < |lines| ==> !IsFloat(parse, Strip(lines[i]))
    decreases |lines|
  {
    if |lines| > 0 {
      NumericValuesEmpty(parse, lines[1..]);
      assert forall i :: 1 <= i < |lines| ==> lines[i] == lines[1..][i - 1];
    }
  }

  lemma {:induction false} NumericValuesAppend(parse: FloatParser, a: seq<string>, b: seq<string>)
    ensures NumericValues(parse, a + b) == NumericValues(parse, a) + NumericValues(parse, b)
    decreases |a|
  {
    if |a| > 0 {
      NumericValuesAppend(parse, a[1..], b);
      assert (a + b)[0] == a[0];
      assert (a + b)[1..] == a[1..] + b;
    } else {
      assert a + b == b;
    }
  }

  /** Python's `max()` over a non-empty list. */
  function MaxOf(xs: seq<Celsius>): (m: Celsius)
    requires |xs| > 0
    ensures m in xs
    ensures forall i :: 0 <= i < |xs| ==> xs[i] <= m
    decreases |xs|
  {
    if |xs| == 1 then xs[0]
    else
      var rest := MaxOf(xs[1..]);
      if xs[0] >= rest then xs[0] else rest
  }

  /** `HDDTemp._get_temp` on the lines of the utility's output. */
  function HddTempFromLines(cfg: HddTempConfig, parse: FloatParser, lines: seq<string>): Result<Reading, TempError> {
    var temps := NumericValues(parse, lines);
    if |temps| == 0 then Failure(NoValidTemperature)
    else Success(Reading(MaxOf(temps), cfg.min, cfg.max))
  }

  /** `HDDTemp._get_temp` on the utility's captured output. */
  function HddTempReading(cfg: HddTempConfig, parse: FloatParser, output: string): Result<Reading, TempError> {
    HddTempFromLines(cfg, parse, SplitNewline(output))
  }

  /** The disk sensor fails, with its own error, exactly when no line parses. */
  lemma HddFailsIffNoNumericLine(cfg: HddTempConfig, parse: FloatParser, lines: seq<string>)
    ensures HddTempFromLines(cfg, parse, lines).Failure? <==>
      forall i :: 0 <= i < |lines| ==> !IsFloat(parse, Strip(lines[i]))
    ensures HddTempFromLines(cfg, parse, lines).Failure? ==>
      HddTempFromLines(cfg, parse, lines).error == NoValidTemperature
  {
    NumericValuesEmpty(parse, lines);
  }

  /** On success the temperature is the value of some numeric line and no numeric
      line is hotter; the bounds are the configured ones. */
  lemma HddTempIsMaximum(cfg: HddTempConfig, parse: FloatParser, lines: seq<string>)
    requires HddTempFromLines(cfg, parse, lines).Success?
    ensures var r := HddTempFromLines(cfg, parse, lines).value;
      && (exists i :: 0 <= i < |lines| && ParsesTo(parse, lines[i], r.temp))
      && (forall i, x :: 0 <= i < |lines| && ParsesTo(parse, lines[i], x) ==> x <= r.temp)
      && r.min == cfg.min && r.max == cfg.max
  {
    var temps := NumericValues(parse, lines);
    var t := MaxOf(temps);
    NumericValuesMembers(parse, lines, t);
    forall i, x | 0 <= i < |lines| && ParsesTo(parse, lines[i], x)
      ensures x <= t
    {
      NumericValuesMembers(parse, lines, x);
    }
  }

  /** A line that does not parse, blank or not, can be dropped or added anywhere. */
  lemma HddNonNumericLineIgnored(cfg: HddTempConfig, parse: FloatParser, a: seq<string>, line: string, b: seq<string>)
    requires !IsFloat(parse, Strip(line))
    ensures HddTempFromLines(cfg, parse, a + [line] + b) == HddTempFromLines(cfg, parse, a + b)
  {
    NumericValuesAppend(parse, a + [line], b);
    NumericValuesAppend(parse, a, [line]);
    NumericValuesAppend(parse, a, b);
    assert [line][1..] == [];
    assert NumericValues(parse, [line]) == [];
    assert NumericValues(parse, a + [line]) == NumericValues(parse, a);
  }

  /** The example output is its three lines and a final empty piece, joined. */
  lemma ExampleOutputJoined()
    ensures JoinNewline(["35.2", "41.0", "not-a-number", ""]) == "35.2\n41.0\nnot-a-number\n"
  {
    var lines := ["35.2", "41.0", "not-a-number", ""];
    assert JoinNewline(lines[2..]) == "not-a-number\n";
    assert JoinNewline(lines[1..]) == "41.0\nnot-a-number\n";
  }

  /** The example output splits into its three lines and a final empty piece. */
  lemma ExampleOutputLines()
    ensures SplitNewline("35.2\n41.0\nnot-a-number\n") == ["35.2", "41.0", "not-a-number", ""]
  {
    var lines := ["35.2", "41.0", "not-a-number", ""];
    ExampleOutputJoined();
    assert forall i :: 0 <= i < |lines| ==> '\n' !in lines[i];
    SplitJoin(lines);
  }

  /** Of the example's lines, 35.2 and 41.0 parse and the maximum is 41.0. */
  lemma ExampleLinesReading(cfg: HddTempConfig, parse: FloatParser)
    requires parse("35.2") == Some(35.2) && parse("41.0") == Some(41.0)
    requires parse("not-a-number").None?
    ensures HddTempFromLines(cfg, parse, ["35.2", "41.0", "not-a-number", ""]) == Success(Reading(41.0, cfg.min, cfg.max))
  {
    var lines := ["35.2", "41.0", "not-a-number", ""];
    StripUnchanged("35.2");
    StripUnchanged("41.0");
    StripUnchanged("not-a-number");
    assert NumericValues(parse, lines[3..]) == [];
    assert NumericValues(parse, lines[2..]) == [];
    assert NumericValues(parse, lines[1..]) == [41.0];
    assert NumericValues(parse, lines) == [35.2, 41.0];
  }

  /** The disk sensor on the output `35.2`, `41.0`, `not-a-number` (each followed by
      a line break) reports 41.0 with the configured bounds. */
  lemma HddTempExample(cfg: HddTempConfig, parse: FloatParser)
    requires parse("35.2") == Some(35.2) && parse("41.0") == Some(41.0)
    requires parse("not-a-number").None?
    ensures HddTempReading(cfg, parse, "35.2\n41.0\nnot-a-number\n") == Success(Reading(41.0, cfg.min, cfg.max))
  {
    ExampleOutputLines();
    ExampleLinesReading(cfg, parse);
  }

  // ---------------------------------------------------------------------------
  // CommandTemp
  // ---------------------------------------------------------------------------

  /** The shell command only determines the output, so the model keeps the
      optional bounds and the limits. */
  datatype CommandTempConfig = CommandTempConfig(min: Option<Celsius>, max: Option<Celsius>, limits: Limits)

  /** The stripped lines that are not blank, in order. */
  function NonBlankLines(lines: seq<string>): (r: seq<string>)
    ensures forall k :: 0 <= k < |r| ==> r[k] != []
    decreases |lines|
  {
    if |lines| == 0 then []
    else
      var s := Strip(lines[0]);
      (if s != [] then [s] else []) + NonBlankLines(lines[1..])
  }

  lemma {:induction false} NonBlankLinesAppend(a: seq<string>, b: seq<string>)
    ensures NonBlankLines(a + b) == NonBlankLines(a) + NonBlankLines(b)
    decreases |a|
  {
    if |a| > 0 {
      NonBlankLinesAppend(a[1..], b);
      assert (a + b)[0] == a[0];
      assert (a + b)[1..] == a[1..] + b;
    } else {
      assert a + b == b;
    }
  }

  /** When no line is blank, the kept lines are the stripped lines, position for
      position. */
  lemma {:induction false} NonBlankLinesNoBlanks(lines: seq<string>)
    requires forall i :: 0 <= i < |lines| ==> !IsBlank(lines[i])
    ensures |NonBlankLines(lines)| == |lines|
    ensures forall i :: 0 <= i < |lines| ==> NonBlankLines(lines)[i] == Strip(lines[i])
    decreases |lines|
  {
    if |lines| > 0 {
      StripEmptyIffBlank(lines[0]);
      NonBlankLinesNoBlanks(lines[1..]);
      assert forall i :: 1 <= i < |lines| ==> lines[1..][i - 1] == lines[i];
    }
  }

  /** `ss[k]` is the first string the parser rejects. */
  predicate FirstUnparsed(parse: FloatParser, ss: seq<string>, k: int) {
    0 <= k < |ss| && parse(ss[k]).None? && forall j :: 0 <= j < k ==> parse(ss[j]).Some?
  }

  /** `float()` over every kept line; the first line that does not parse raises. */
  function ParseAll(parse: FloatParser, ss: seq<string>): (r: Result<seq<Celsius>, TempError>)
    ensures r.Success? <==> forall k :: 0 <= k < |ss| ==> parse(ss[k]).Some?
    ensures r.Success? ==> |r.value| == |ss| && forall k :: 0 <= k < |ss| ==> r.value[k] == parse(ss[k]).value
    ensures r.Failure? ==> exists k :: FirstUnparsed(parse, ss, k) && r.error == NotAFloat(ss[k])
    decreases |ss|
  {
    if |ss| == 0 then Success([])
    else match parse(ss[0])
      case None => Failure(NotAFloat(ss[0]))
      case Some(x) =>
        var rest :- ParseAll(parse, ss[1..]);
        Success([x] + rest)
  }

  /** `CommandTemp._get_temp` on the lines of the command's output: kept line 0 is
      the temperature; kept line 1 is the minimum and kept line 2 the maximum, each
      consulted only when that bound is not configured. */
  function CommandTempFromLines(cfg: CommandTempConfig, parse: FloatParser, lines: seq<string>): Result<Reading, TempError> {
    var temps :- ParseAll(parse, NonBlankLines(lines));
    if |temps| < 1 then Failure(LineMissing(0))
    else
      var lo :- (if cfg.min.Some? then Success(cfg.min.value)
                 else if |temps| < 2 then Failure(LineMissing(1))
                 else Success(temps[1]));
      var hi :- (if cfg.max.Some? then Success(cfg.max.value)
                 else if |temps| < 3 then Failure(LineMissing(2))
                 else Success(temps[2]));
      Success(Reading(temps[0], lo, hi))
  }

  /** `CommandTemp._get_temp` on the command's captured output. */
  function CommandTempReading(cfg: CommandTempConfig, parse: FloatParser, output: string): Result<Reading, TempError> {
    CommandTempFromLines(cfg, parse, SplitNewline(output))
  }

  /** The value the command sensor takes from kept line `k`. */
  function LineValue(parse: FloatParser, nb: seq<string>, k: nat): Celsius
    requires k < |nb| && parse(nb[k]).Some?
  {
    parse(nb[k]).value
  }

  /** The command sensor fails exactly when a kept line does not parse, or a line
      it needs is missing: line 0 always, line 1 without a configured minimum,
      line 2 without a configured maximum. */
  lemma CommandFailsIff(cfg: CommandTempConfig, parse: FloatParser, lines: seq<string>)
    ensures var nb := NonBlankLines(lines);
      CommandTempFromLines(cfg, parse, lines).Failure? <==>
        || (exists k :: 0 <= k < |nb| && parse(nb[k]).None?)
        || |nb| < 1
        || (cfg.min.None? && |nb| < 2)
        || (cfg.max.None? && |nb| < 3)
  {
  }

  /** On success the positions are absolute: the temperature is kept line 0, an
      unconfigured minimum is kept line 1 and an unconfigured maximum is kept
      line 2, whether or not the other bound was configured. */
  lemma CommandUsesAbsoluteIndices(cfg: CommandTempConfig, parse: FloatParser, lines: seq<string>)
    requires CommandTempFromLines(cfg, parse, lines).Success?
    ensures var nb := NonBlankLines(lines);
      var r := CommandTempFromLines(cfg, parse, lines).value;
      && 1 <= |nb| && (forall k :: 0 <= k < |nb| ==> parse(nb[k]).Some?)
      && r.temp == LineValue(parse, nb, 0)
      && (cfg.min.Some? ==> r.min == cfg.min.value)
      && (cfg.min.None? ==> 2 <= |nb| && r.min == LineValue(parse, nb, 1))
      && (cfg.max.Some? ==> r.max == cfg.max.value)
      && (cfg.max.None? ==> 3 <= |nb| && r.max == LineValue(parse, nb, 2))
  {
  }

  /** Blank lines anywhere in the output do not matter. */
  lemma CommandBlankLineIgnored(cfg: CommandTempConfig, parse: FloatParser, a: seq<string>, line: string, b: seq<string>)
    requires IsBlank(line)
    ensures CommandTempFromLines(cfg, parse, a + [line] + b) == CommandTempFromLines(cfg, parse, a + b)
  {
    NonBlankLinesDropBlank(a, line, b);
  }

  /** Filtering skips a whitespace-only line wherever it stands. */
  lemma NonBlankLinesDropBlank(a: seq<string>, line: string, b: seq<string>)
    requires IsBlank(line)
    ensures NonBlankLines(a + [line] + b) == NonBlankLines(a + b)
  {
    StripEmptyIffBlank(line);
    NonBlankLinesAppend(a + [line], b);
    NonBlankLinesAppend(a, [line]);
    NonBlankLinesAppend(a, b);
    assert [line][1..] == [];
    assert NonBlankLines([line]) == [];
  }

  /** With only the minimum configured, the maximum still comes from line 2, not
      line 1; line 1 must parse but its value is unused. */
  lemma CommandMaxIsLineTwo(cfg: CommandTempConfig, parse: FloatParser, t: string, skipped: string, hi: string)
    requires cfg.min.Some? && cfg.max.None?
    requires !IsBlank(t) && !IsBlank(skipped) && !IsBlank(hi)
    requires parse(Strip(t)).Some? && parse(Strip(skipped)).Some? && parse(Strip(hi)).Some?
    ensures CommandTempFromLines(cfg, parse, [t, skipped, hi]) ==
      Success(Reading(parse(Strip(t)).value, cfg.min.value, parse(Strip(hi)).value))
  {
    var lines := [t, skipped, hi];
    NonBlankLinesNoBlanks(lines);
  }

  /** With only the minimum configured, two lines are not enough: line 2 is missing. */
  lemma CommandNeedsLineTwo(cfg: CommandTempConfig, parse: FloatParser, t: string, second: string)
    requires cfg.min.Some? && cfg.max.None?
    requires !IsBlank(t) && !IsBlank(second)
    requires parse(Strip(t)).Some? && parse(Strip(second)).Some?
    ensures CommandTempFromLines(cfg, parse, [t, second]) == Failure(LineMissing(2))
  {
    NonBlankLinesNoBlanks([t, second]);
  }

  // ---------------------------------------------------------------------------
  // The sensor variants behind one interface
  // ---------------------------------------------------------------------------

  /** The closed set of temperature sources. */
  datatype Sensor =
    | FileTemp(file: FileTempConfig)
    | HddTemp(hdd: HddTempConfig)
    | CommandTemp(command: CommandTempConfig)
  {
    function Limits(): Limits {
      match this
      case FileTemp(c) => c.limits
      case HddTemp(c) => c.limits
      case CommandTemp(c) => c.limits
    }
  }

  /** What the outside world supplies to one read: the files, the captured
      output of the sensor's command, and `float()`. */
  datatype Environment = Environment(files: Files, output: string, parse: FloatParser)

  /** `_get_temp`, dispatched on the variant. */
  function GetTemp(s: Sensor, env: Environment): Result<Reading, TempError> {
    match s
    case FileTemp(c) => FileTempReading(c, env.files)
    case HddTemp(c) => HddTempReading(c, env.parse, env.output)
    case CommandTemp(c) => CommandTempReading(c, env.parse, env.output)
  }

  /** `Temp.get`: the source's triple, validated. Every status handed out is
      well formed and carries the source's triple and the configured limits; the
      call fails exactly when the source fails or the range is not proper. */
  function SensorGet(s: Sensor, env: Environment): (r: Result<TempStatus, TempError>)
    ensures r.Success? <==> GetTemp(s, env).Success? && GetTemp(s, env).value.min < GetTemp(s, env).value.max
    ensures r.Success? ==> WellFormed(r.value) && Carries(r.value, GetTemp(s, env).value, s.Limits())
    ensures GetTemp(s, env).Failure? ==> r == Failure(GetTemp(s, env).error)
    ensures GetTemp(s, env).Success? && !(GetTemp(s, env).value.min < GetTemp(s, env).value.max) ==>
      r == Failure(MinNotBelowMax(GetTemp(s, env).value.min, GetTemp(s, env).value.max))
  {
    var reading :- GetTemp(s, env);
    Get(reading, s.Limits())
  }
}

=== FILE: text.dfy ===
/** The pieces of Python's text handling that the temperature sensors rely on:
    `str.strip()`, `str.split("\n")` and `int()` on a decimal string.
    Each is given a partner: stripping is characterised by what it removes and is
    idempotent, splitting is inverted by joining, and integer parsing is inverted
    by integer printing. */
module Text {
  import opened Wrappers

  // ---------------------------------------------------------------------------
  // str.strip()
  // ---------------------------------------------------------------------------

  /** The characters for which Python's `str.isspace()` holds; these are the
      ones `str.strip()` with no argument removes. */
  predicate IsSpace(c: char) {
    || c == ' ' || c == '\t' || c == '\n' || c == '\r'
    || c == '\U{000B}' || c == '\U{000C}'
    || ('\U{001C}' <= c <= '\U{001F}')
    || c == '\U{0085}' || c == '\U{00A0}' || c == '\U{1680}'
    || ('\U{2000}' <= c <= '\U{200A}')
    || c == '\U{2028}' || c == '\U{2029}' || c == '\U{202F}' || c == '\U{205F}'
    || c == '\U{3000}'
  }

  predicate IsBlank(s: string) {
    forall i :: 0 <= i < |s| ==> IsSpace(s[i])
  }

  /** Drops leading whitespace. */
  function TrimLeft(s: string): string
    decreases |s|
  {
    if |s| > 0 && IsSpace(s[0]) then TrimLeft(s[1..]) else s
  }

  /** Drops trailing whitespace. */
  function TrimRight(s: string): string
    decreases |s|
  {
    if |s| > 0 && IsSpace(s[|s| - 1]) then TrimRight(s[..|s| - 1]) else s
  }

  /** The left-trimmed string is a suffix of `s`, everything dropped is
      whitespace, and the result does not start with whitespace. */
  lemma {:induction false} TrimLeftShape(s: string)
    ensures |TrimLeft(s)| <= |s| && TrimLeft(s) == s[|s| - |TrimLeft(s)|..]
    ensures forall i :: 0 <= i < |s| - |TrimLeft(s)| ==> IsSpace(s[i])
    ensures TrimLeft(s) == [] || !IsSpace(TrimLeft(s)[0])
    decreases |s|
  {
    if |s| > 0 && IsSpace(s[0]) {
      TrimLeftShape(s[1..]);
      assert forall i :: 1 <= i < |s| ==> s[i] == s[1..][i - 1];
    }
  }

  /** The right-trimmed string is a prefix of `s`, everything dropped is
      whitespace, and the result does not end with whitespace. */
  lemma {:induction false} TrimRightShape(s: string)
    ensures |TrimRight(s)| <= |s| && TrimRight(s) == s[..|TrimRight(s)|]
    ensures forall i :: |TrimRight(s)| <= i < |s| ==> IsSpace(s[i])
    ensures TrimRight(s) == [] || !IsSpace(TrimRight(s)[|TrimRight(s)| - 1])
    decreases |s|
  {
    if |s| > 0 && IsSpace(s[|s| - 1]) {
      TrimRightShape(s[..|s| - 1]);
    }
  }

  /** Python's `s.strip()`. */
  function Strip(s: string): string {
    TrimRight(TrimLeft(s))
  }

  /** `s.strip()` is empty exactly when `s` is all whitespace, which is what
      Python's `if line.strip()` tests. */
  lemma StripEmptyIffBlank(s: string)
    ensures Strip(s) == [] <==> IsBlank(s)
  {
    var l := TrimLeft(s);
    TrimLeftShape(s);
    TrimRightShape(l);
    if Strip(s) == [] {
      // a non-empty `l` would start with a non-space that TrimRight cannot drop
      assert l == [];
    }
  }

  /** The stripped string has no whitespace at either end, and what was removed
      from either end is whitespace. */
  lemma StripShape(s: string)
    ensures Strip(s) == [] || (!IsSpace(Strip(s)[0]) && !IsSpace(Strip(s)[|Strip(s)| - 1]))
    ensures exists k :: InfixAt(Strip(s), s, k)
  {
    var l := TrimLeft(s);
    var r := TrimRight(l);
    TrimLeftShape(s);
    TrimRightShape(l);
    var k := |s| - |l|;
    assert l == s[k..];
    assert r == l[..|r|];
    assert r == s[k..k + |r|];
    if r != [] {
      assert r[0] == l[0];
    }
    assert InfixAt(r, s, k);
  }

  /** `r` occurs in `s` starting at index `k`. */
  predicate InfixAt(r: string, s: string, k: int) {
    0 <= k <= |s| - |r| && r == s[k..k + |r|]
  }

  lemma {:induction false} TrimLeftNoop(s: string)
    requires s == [] || !IsSpace(s[0])
    ensures TrimLeft(s) == s
  {
  }

  lemma {:induction false} TrimRightNoop(s: string)
    requires s == [] || !IsSpace(s[|s| - 1])
    ensures TrimRight(s) == s
  {
  }

  /** A string without whitespace at its ends is left as it is. */
  lemma StripUnchanged(s: string)
    requires s != [] && !IsSpace(s[0]) && !IsSpace(s[|s| - 1])
    ensures Strip(s) == s
  {
    TrimLeftNoop(s);
    TrimRightNoop(s);
  }

  /** Stripping twice is stripping once. */
  lemma StripIdempotent(s: string)
    ensures Strip(Strip(s)) == Strip(s)
  {
    var r := Strip(s);
    StripShape(s);
    TrimLeftNoop(r);
    TrimRightNoop(r);
  }

  // ---------------------------------------------------------------------------
  // str.split("\n") and its inverse "\n".join(...)
  // ---------------------------------------------------------------------------

  /** Python's `s.split("\n")`: the pieces between line breaks, always at
      least one (the empty string gives `[""]`, a trailing break gives a final
      empty piece). */
  function SplitNewline(s: string): (r: seq<string>)
    ensures |r| >= 1
    ensures forall i :: 0 <= i < |r| ==> '\n' !in r[i]
    decreases |s|
  {
    if |s| == 0 then [""]
    else if s[0] == '\n' then [""] + SplitNewline(s[1..])
    else
      var rest := SplitNewline(s[1..]);
      [[s[0]] + rest[0]] + rest[1..]
  }

  /** Python's `"\n".join(parts)`. */
  function JoinNewline(parts: seq<string>): string
    requires |parts| >= 1
    decreases |parts|
  {
    if |parts| == 1 then parts[0] else parts[0] + "\n" + JoinNewline(parts[1..])
  }

  /** Joining the pieces back together gives the original text. */
  lemma {:induction false} JoinSplit(s: string)
    ensures JoinNewline(SplitNewline(s)) == s
    decreases |s|
  {
    if |s| == 0 {
    } else if s[0] == '\n' {
      JoinSplit(s[1..]);
      assert s == "\n" + s[1..];
    } else {
      var rest := SplitNewline(s[1..]);
      JoinSplit(s[1..]);
      if |rest| == 1 {
        assert s == [s[0]] + s[1..];
      } else {
        var tail := JoinNewline(rest[1..]);
        assert JoinNewline(rest) == rest[0] + "\n" + tail;
        assert ([s[0]] + rest[0]) + "\n" + tail == [s[0]] + (rest[0] + "\n" + tail);
        assert s == [s[0]] + s[1..];
      }
    }
  }

  /** A piece without a line break is its own single line. */
  lemma {:induction false} SplitSingle(w: string)
    requires '\n' !in w
    ensures SplitNewline(w) == [w]
    decreases |w|
  {
    if |w| > 0 {
      assert w[0] in w;
      assert forall c :: c in w[1..] ==> c in w;
      SplitSingle(w[1..]);
      assert w == [w[0]] + w[1..];
    }
  }

  /** A line break-free prefix followed by a break splits off as the first line. */
  lemma {:induction false} SplitCons(w: string, t: string)
    requires '\n' !in w
    ensures SplitNewline(w + "\n" + t) == [w] + SplitNewline(t)
    decreases |w|
  {
    var s := w + "\n" + t;
    if |w| == 0 {
      assert s == "\n" + t;
      assert s[1..] == t;
    } else {
      assert w[0] in w;
      assert forall c :: c in w[1..] ==> c in w;
      assert s[0] == w[0];
      assert s[1..] == w[1..] + "\n" + t;
      SplitCons(w[1..], t);
      assert [w[0]] + w[1..] == w;
    }
  }

  /** Splitting a join of break-free pieces gives back the pieces. */
  lemma {:induction false} SplitJoin(parts: seq<string>)
    requires |parts| >= 1
    requires forall i :: 0 <= i < |parts| ==> '\n' !in parts[i]
    ensures SplitNewline(JoinNewline(parts)) == parts
    decreases |parts|
  {
    if |parts| == 1 {
      SplitSingle(parts[0]);
    } else {
      SplitJoin(parts[1..]);
      SplitCons(parts[0], JoinNewline(parts[1..]));
      assert parts == [parts[0]] + parts[1..];
    }
  }

  // ---------------------------------------------------------------------------
  // int() on a stripped decimal string, and its inverse str()
  // ---------------------------------------------------------------------------

  predicate IsDigit(c: char) {
    '0' <= c <= '9'
  }

  predicate AllDigits(s: string) {
    forall i :: 0 <= i < |s| ==> IsDigit(s[i])
  }

  function DigitValue(c: char): (d: nat)
    requires IsDigit(c)
    ensures d < 10
  {
    c as int - '0' as int
  }

  function DigitChar(d: nat): (c: char)
    requires d < 10
    ensures IsDigit(c) && DigitValue(c) == d
  {
    ('0' as int + d) as char
  }

  /** The value of a string of decimal digits, most significant first. */
  function DigitsValue(s: string): nat
    requires AllDigits(s)
    decreases |s|
  {
    if |s| == 0 then 0 else DigitsValue(s[..|s| - 1]) * 10 + DigitValue(s[|s| - 1])
  }

  /** Python's `int(s)` on an already stripped string: an optional sign followed
      by at least one decimal digit; anything else is a ValueError (None). */
  function ParseInt(s: string): Option<int> {
    if |s| > 0 && (s[0] == '-' || s[0] == '+') then
      if |s| > 1 && AllDigits(s[1..]) then
        Some(if s[0] == '-' then -(DigitsValue(s[1..]) as int) else DigitsValue(s[1..]))
      else None
    else if |s| > 0 && AllDigits(s) then Some(DigitsValue(s))
    else None
  }

  /** Python's `str(n)` for a natural number. */
  function ShowNat(n: nat): (s: string)
    ensures |s| > 0 && AllDigits(s)
  {
    if n < 10 then [DigitChar(n)] else ShowNat(n / 10) + [DigitChar(n % 10)]
  }

  /** Python's `str(n)`. */
  function ShowInt(n: int): string {
    if n < 0 then "-" + ShowNat(-n) else ShowNat(n)
  }

  lemma {:induction false} DigitsValueShowNat(n: nat)
    ensures DigitsValue(ShowNat(n)) == n
  {
    if n >= 10 {
      var s := ShowNat(n);
      DigitsValueShowNat(n / 10);
      assert s[..|s| - 1] == ShowNat(n / 10);
    }
  }

  /** Printing an integer and parsing it back is the identity. */
  lemma ParseShowInt(n: int)
    ensures ParseInt(ShowInt(n)) == Some(n)
  {
    if n < 0 {
      var d := ShowNat(-n);
      var s := ShowInt(n);
      assert s == "-" + d;
      assert |s| > 1 && s[0] == '-';
      assert s[1..] == d;
      DigitsValueShowNat(-n);
      assert ParseInt(s) == Some(-(DigitsValue(d) as int));
    } else {
      var d := ShowNat(n);
      assert ShowInt(n) == d;
      assert |d| > 0 && IsDigit(d[0]);
      DigitsValueShowNat(n);
      assert ParseInt(d) == Some(DigitsValue(d));
    }
  }

  /** A printed integer has no surrounding whitespace, so stripping it (with
      the line break a file usually ends with) gives it back. */
  lemma StripShownLine(n: int)
    ensures Strip(ShowInt(n) + "\n") == ShowInt(n)
  {
    var s := ShowInt(n);
    var t := s + "\n";
    assert t[0] == s[0];
    assert s[0] == '-' || IsDigit(s[0]);
    NotSpace(s[0]);
    TrimLeftNoop(t);
    assert t[..|t| - 1] == s;
    assert IsDigit(s[|s| - 1]);
    NotSpace(s[|s| - 1]);
    TrimRightNoop(s);
  }

  lemma NotSpace(c: char)
    requires c == '-' || IsDigit(c)
    ensures !IsSpace(c)
  {
  }
}

=== FILE: wrappers.dfy ===
/** Failure-compatible datatypes shared by the sensor and actuator models.
    - Option<T>: a value that may be absent (an unconfigured limit, a failed parse);
    - Result<R, E>: a computed value or the exception that the source raises instead;
    - Completion<E>: how a `with` scope ends, normally or by raising. */
module Wrappers {

  datatype Option<+T> = None | Some(value: T) {

    /** The value, or `default` when absent. */
    function GetOr(default: T): T {
      match this
      case Some(v) => v
      case None => default
    }
  }

  datatype Result<+R, +E> = Success(value: R) | Failure(error: E) {

    predicate IsFailure() {
      Failure?
    }

    function PropagateFailure<U>(): Result<U, E>
      requires Failure?
    {
      Failure(error)
    }

    function Extract(): R
      requires Success?
    {
      value
    }
  }

  /** The way control leaves a Python `with` body or an `__exit__` call:
      either normally or by propagating an exception. */
  datatype Completion<+E> = Normal | Raised(exc: E)
}
